=== FILE: README.md ===
# Shelby & Cleo Meow Clicker — a Dafny model of its game state and anti-cheat logic

`script.js` runs a browser clicker game. Its parts are:

- Clicking the cat earns *meows*, scaled by a *multiplier*.
- One-time shop upgrades multiply that multiplier.
- A coinflip casino stakes meows.
- A stats panel counts the time the page spent in the foreground.

The state persists in `localStorage` with a SHA-256 checksum keyed by a per-session secret. Three defences guard it:

- a click cooldown with a click-rate lock;
- a monitor that restores the balance display and counts edits of it;
- an integrity check that locks the game when the stored state no longer matches its checksum.

This project models that logic with the DOM stripped away. It is a functional state machine:

- A `World` holds the persisted `GameState` and the page-lifetime `Runtime` fields: last click, click window, lock, tamper counter, foreground timer, and the display text.
- It also holds the key-value store and the coin flips still waiting for their reveal.
- Every event handler and timer callback is a pure function from `World` to `World`, and `Game.Step` dispatches events to them.
- Clock readings, coin results, the player's pick, the bet field's value and the reset confirmation are inputs.

| module | file | models |
|---|---|---|
| `Wrappers` | wrappers.dfy | `Option` |
| `Text` | text.dfy | integer ↔ decimal text, `toFixed` on exact reals |
| `Config` | config.dfy | `CONFIG`, the shop catalogue, the product of owned multipliers |
| `State` | state.dfy | `GameState`, runtime fields, `World`, the consistency predicates |
| `Storage` | storage.dfy | `loadState`, `computeChecksum`, `saveState`, `verifyIntegrity` |
| `Display` | display.dfy | `fmt` and the display-tamper monitor |
| `Clicks` | clicks.dfy | `registerClick` and the click-window smoothing tick |
| `Shop` | shop.dfy | `buyItem`, the buy buttons' listener, reset-upgrades |
| `Casino` | casino.dfy | `coinflip` (place and reveal), the bet field's arrow keys |
| `ActiveTime` | activetime.dfy | start/stop of the foreground timer, `formatTime` |
| `Game` | game.dfy | start-up, `init`, `periodicSave`, the auto-save, the event step, runs |

### Collaborators as parameters

SHA-256, `JSON.stringify`/`JSON.parse` and the session secret are fields of `Storage.Env`. A lemma that needs a property of them states it as a `requires`:

- `RoundTrips`: re-serializing what a state's JSON parses back to gives the same text.
- `Faithful`: `RoundTrips` holds for every state.
- `Injective`: for the hash.

### Where the code's behaviour is surprising

The model follows `script.js`, including where its behaviour differs from what the game appears to intend.

- **The click-rate lock can never fire** (`Clicks.ClickNeverRateLocks`). Admitted clicks are at least 200 ms apart, so a 2 s window holds at most 10 of them: 5 clicks per second, never above 7. Eight clicks 120 ms apart do not lock the game. The cooldown drops every other one.
- **Buying an upgrade twice is prevented only by the disabled button.** `buyItem` does not check ownership, so a second purchase charges again and appends a duplicate (`Shop.BuyItemRepurchases`). It does not check the lock either. `Shop.BuyButtonKeepsNoDuplicates` holds only because each handler is one atomic step here. In the page, buyItem awaits the save before `renderShop` disables the button (script.js:178-179), so a second press during that wait buys again.
- **Foreground time can go down.** stopActiveTimer floors the elapsed milliseconds without checking their sign (script.js:313). A clock set back between showing and hiding the page lowers `activeTimeSeconds` (`ActiveTime.ShowHideAccumulates`).
- **A store edit is caught only if no save runs first.** The integrity tick compares the stored blob with its checksum (script.js:285-291). The five-second auto-save (script.js:446) and every paid click (script.js:214) overwrite both without verifying first. So an edit followed by a save before the next tick is never noticed (`Game.AutoSaveHidesEdit`).
- **The display monitor misfires.** Its filter keeps digits, `K`, `M` and `.`, but `fmt` writes a lower-case `k`, a `B`, and a `-` for a negative balance. So for a balance in [1e3, 1e6) or ≥ 1e9, every tick counts as tampering, and four ticks lock the game (`Display.MisfireLocksWithinFourTicks`).

## Model

| member | source | states |
|---|---|---|
| `Text.NatToString` | script.js:116 | the decimal text of a natural number is non-empty, all digits, and a single digit exactly below ten |
| `Text.IntToString` | script.js:116 | `toString` of an integer is all digits exactly when it is non-negative and starts with '-' exactly when it is negative |
| `Text.ParseNatToString` | script.js:116 | reading the digits of `NatToString(n)` back gives `n` |
| `Text.ReadIntOfString` | script.js:329-337 | reading an integer from the front of `IntToString(i) + rest` gives `i` and leaves `rest`, for rests not starting with a digit |
| `Text.ToFixed` | script.js:113-115 | `toFixed` of a non-negative number yields only digits and '.' |
| `Config.FindSpec` | script.js:79-84 | `SHOP.find` returns the first catalogue entry with the id, and nothing exactly when no entry has it |
| `Config.FindIsSearch` | script.js:166 | the catalogue lookup is `find`: a first-match search over the entries in order |
| `Config.MultOf` | script.js:79-84 | every catalogue multiplier is at least 1.5 |
| `Config.ProductAppend` | script.js:174-176 | appending an id multiplies the product of owned multipliers by that item's multiplier |
| `Config.ProductAtLeastOne` | script.js:174-176 | the product over any owned list is at least 1 |
| `State.DefaultConsistent` | script.js:69-76 | the default state has a non-negative balance, no upgrades, and multiplier 1 equal to the empty product |
| `Storage.Load` | script.js:37-46 | an absent or empty blob loads as nothing; a present, non-empty blob loads as its parse |
| `Storage.Save` | script.js:54-58 | saving writes the serialized state under `sc_state` and its checksum under `sc_check`, leaves every other key alone, and the blob loads back as the parse of the serialized state |
| `Storage.SaveThenVerify` | script.js:48-66 | a store just saved verifies, when re-serializing the parsed state is stable |
| `Storage.NothingStoredVerifies` | script.js:60-62 | an absent, empty or unparseable blob is "nothing to verify" and passes |
| `Storage.MissingChecksumFails` | script.js:60-65 | a parseable blob with no checksum key fails verification |
| `Storage.OtherSecretFails` | script.js:48-65 | with an injective hash, a state saved under one session secret fails verification under another |
| `Storage.OverwrittenBlobFails` | script.js:48-65 | with an injective hash, replacing the blob with one of a different state, checksum untouched, fails verification |
| `Display.Fmt` | script.js:112-117 | the balance text ends in 'B', 'M' or 'k' from 1e9, 1e6 and 1e3 up, and is the floored integer below 1e3 |
| `Display.Strip` | script.js:351 | the filter leaves only digits, 'K', 'M' and '.', never lengthens, and leaves text unchanged exactly when it holds nothing else |
| `Display.StripOne` | script.js:351 | on one character the filter keeps it exactly when it is a digit, 'K', 'M' or '.' |
| `Display.StripAppend` | script.js:351 | the filter works character by character, keeping order: it distributes over concatenation |
| `Display.StripFmtIff` | script.js:351-353 | the filtered `fmt(m)` equals `fmt(m)` exactly when m lies in [0, 1e3) or [1e6, 1e9) |
| `Display.TamperTick` | script.js:349-364 | the counter grows by one exactly when the filtered display differs from `fmt(meows)`, and then the display is restored; the game is locked afterwards exactly when it was locked or this mismatch took the count above 3; no mismatch changes nothing; only the counter, the display and the lock ever change |
| `Display.TamperMisfires` | script.js:350-354 | outside [0, 1e3) and [1e6, 1e9) every tick counts as tampering, whatever the display holds |
| `Display.TamperQuietAfterRender` | script.js:350-353 | inside those ranges a freshly rendered display passes the monitor unchanged |
| `Display.MisfireLocksWithinFourTicks` | script.js:349-362 | with a balance in [1e3, 1e6) or at least 1e9, four monitor ticks lock the game |
| `Clicks.Recent` | script.js:195-196 | the window filter keeps exactly the timestamps after the cutoff and never lengthens the window |
| `Clicks.RecentOne` | script.js:196 | on one timestamp the filter keeps it exactly when it is after the cutoff |
| `Clicks.RecentAppend` | script.js:196 | the filter keeps order: it distributes over concatenation |
| `Clicks.SpacedSpan` | script.js:188-196 | timestamps a cooldown apart span at least one cooldown per gap |
| `Clicks.WindowHoldsAtMostTen` | script.js:195-198 | at most ten cooldown-spaced timestamps fit in a 2000 ms window |
| `Clicks.AdmitKeepsSpaced` | script.js:188-196 | admitting a click a cooldown after the last and trimming keeps the window spaced, inside the last 2 s, and at most ten long |
| `Clicks.Click` | script.js:184-216 | a locked game or a click within 200 ms of the last admitted one changes nothing; an admitted click records `now`, the window becomes the timestamps after now - 2000 with `now` appended, and the game locks exactly when that window's length over 2 exceeds 7, leaving the display as it was; an admitted click that does not lock pays the multiplier to meows and its floor to totalEarned, then saves and redraws |
| `Clicks.ClickKeepsWindow` | script.js:188-196 | admitted timestamps stay a cooldown apart and no later than the last admitted click |
| `Clicks.ClickNeverRateLocks` | script.js:188-207 | the rate lock never fires: a click leaves the lock as it found it |
| `Clicks.ClickPays` | script.js:209-214 | an admitted click adds exactly the multiplier to meows and exactly its floor to totalEarned, leaving owned and totalSpent alone |
| `Clicks.SmoothTick` | script.js:428-433 | the smoothing tick applies the window filter, keeping in order the timestamps after now - 2000, and changes nothing else |
| `Clicks.SmoothKeepsWindow` | script.js:428-430 | the smoothing tick keeps the window spaced |
| `Shop.BuyItem` | script.js:165-181 | an unknown id or an unaffordable price changes nothing; otherwise price debited (balance stays ≥ 0) and added to totalSpent, id appended, multiplier times the item's, state saved, balance display redrawn |
| `Shop.BuyKeepsConsistent` | script.js:172-176 | a purchase keeps the multiplier equal to the product over the owned list |
| `Shop.BuyItemRepurchases` | script.js:165-176 | buying an owned, affordable upgrade again charges again and leaves a duplicate in owned |
| `Shop.BuyItemIgnoresLock` | script.js:165-176 | buyItem completes a purchase in a locked game |
| `Shop.BuyButton` | script.js:143-159 | an owned id's disabled button and a locked game change nothing; otherwise buyItem runs |
| `Shop.BuyButtonKeepsNoDuplicates` | script.js:143-159 | through the buttons no id is ever owned twice and the product invariant holds |
| `Shop.ResetUpgrades` | script.js:367-374 | after confirmation owned is empty and the multiplier 1, every other field unchanged, the state saved; no confirmation changes nothing |
| `Casino.PlaceBet` | script.js:239-256 | the state changes exactly when unlocked and floor(input) is within [5, 200000] and affordable; then it is debited, added to totalSpent, saved and queued |
| `Casino.ResolveFlip` | script.js:258-269 | a reveal pays twice the bet and saves on a match, changes no state on a miss, and dequeues the oldest bet |
| `Casino.FlipNets` | script.js:250-262 | a bet placed and revealed nets +bet on a win and -bet on a loss, adds bet to totalSpent, never touches totalEarned |
| `Casino.ResolveIgnoresLock` | script.js:258-263 | a winning reveal pays out in a locked game |
| `Casino.BetUp` | script.js:438 | ArrowUp gives value + 5 or 200000, whichever is smaller: never above either, equal to one of them |
| `Casino.BetDown` | script.js:439 | ArrowDown gives value - 5 or 5, whichever is larger: never below either, equal to one of them |
| `Casino.BetStepsCancel` | script.js:438-439 | away from the caps, ArrowUp then ArrowDown (and the reverse) returns the original value |
| `ActiveTime.Show` | script.js:304-308 | starting the timer records the clock only when it is not already running |
| `ActiveTime.ElapsedSeconds` | script.js:313 | the elapsed whole seconds are the floor of the elapsed milliseconds over 1000, negative exactly when the clock went back |
| `ActiveTime.Hide` | script.js:310-317 | stopping a running timer adds the whole elapsed seconds, clears the running flag and the start, changes no other runtime field, and saves; a stopped timer changes nothing |
| `ActiveTime.ShowHideAccumulates` | script.js:304-317 | a foreground spell adds its floored whole seconds; activeTimeSeconds grows exactly when the clock did not go back |
| `ActiveTime.FormatTimeReadsBack` | script.js:329-337 | formatTime text reads back to the seconds exactly below an hour, and to the seconds less those within the minute from an hour up |
| `Game.Init` | script.js:392-407 | a store failing verification is replaced by a saved default state; a verifying store keeps its contents and supplies the loaded state if any; the display is rendered |
| `Game.StartVerifies` | script.js:392-404 | after start-up the store verifies, whichever branch init took |
| `Game.IntegritySave` | script.js:285-300 | a failing store locks the game and is left as it was, with no other change; a verifying store gets the current state saved, the lock untouched, and still verifies when JSON re-serialization is stable |
| `Game.AutoSave` | script.js:446 | the quick auto-save is a `saveState` of the current state: it writes the serialized state under `sc_state` and `computeChecksum` of it under `sc_check`, keeps every other key, changes nothing else, and leaves a verifying store when JSON re-serialization is stable |
| `Game.LockLatch` | script.js:184-374 | no event clears the lock |
| `Game.LockedRefuses` | script.js:156-240 | a locked game leaves clicks, buy-button presses and new bets without effect |
| `Game.ResetIgnoresLock` | script.js:367-371 | reset-upgrades empties owned in a locked game |
| `Game.StartEstablishesInv` | script.js:392-404 | start-up from a store holding no state or a sane one yields a page satisfying the game invariant |
| `Game.StepKeepsInv` | script.js:165-433 | every event keeps: balance ≥ 0, multiplier = product of owned, no duplicate upgrades, a spaced click window, queued bets ≥ 5, a tamper count above 3 only when locked |
| `Game.RunKeepsInv` | script.js:165-433 | the invariant holds after any sequence of events |
| `Game.RunKeepsLock` | script.js:184-374 | once locked, locked after any sequence of events |
| `Game.LockSources` | script.js:184-364 | on an invariant page only the display monitor and the integrity check ever set the lock |
| `Game.StepTotalsGrow` | script.js:165-256 | on an invariant page no event lowers totalEarned or totalSpent |
| `Game.StepKeepsVerified` | script.js:285-300 | with stable JSON re-serialization and no outside edit of the store, the store keeps verifying and the integrity check never locks |
| `Game.EditedStoreLocks` | script.js:285-291 | an outside edit that makes the store fail verification locks the game when the integrity tick is the next event, state untouched |
| `Game.AutoSaveHidesEdit` | script.js:446 | an auto-save between the edit and the integrity tick re-signs the in-memory state over the edit, so the tick does not lock |

## Left out

- The DOM is not modelled: `updateDisplays`, `updateOwnedList`, `renderShop` markup, tabs, animations, `flashCasinoLog`, alerts, the paste and context-menu handlers, and the stats export download. The one piece of page text the logic reads back, the balance display, is kept as `Runtime.display`. The shop buttons' disabled state is kept as the ownership test in `Shop.BuyButton`.
- SHA-256, JSON and the random session secret are parameters (`Storage.Env`), not implementations.
- Timers and asynchrony are not modelled. Each `setInterval`/`setTimeout` callback and each handler is one atomic step; the un-awaited saves and any interleaving of awaits are not modelled. The 800 ms reveals all have the same delay, so they resolve first-in first-out.
- `Date.now` and `Math.random` are inputs. The coin result is fixed when the bet is placed, as in the source.
- Numbers are exact `real`s, not IEEE doubles. `toFixed(6)` applied to the multiplier and the balance is the identity here. That is exact for the values the game reaches: products of 1.5, 2, 3 and 5, and their sums.
- `Text.ToFixed` rounds half up on exact values, not on the nearest double. A quotient whose double lies just below a half can therefore render one last digit higher than in a browser. Balances such as 1450 and 1,005,000 render as "1.5k" and "1.01M" here, where the IEEE quotients 1.45 and 1.005 may round down. The display monitor is unaffected, because both sides of its comparison use the same `Fmt`. The exponent notation `toFixed` uses from 1e21 up is not modelled.
- `Storage.Verify`, `Storage.Checksum`, `ActiveTime.FormatTime`, `Config.Find`, `Game.Boot` and `Game.Step` carry no contract of their own, so they have no row. Partner lemmas state their behaviour:
  - `Storage.Verify`: `Storage.SaveThenVerify`, `Storage.NothingStoredVerifies`, `Storage.MissingChecksumFails`, `Storage.OtherSecretFails` and `Storage.OverwrittenBlobFails`.
  - `Storage.Checksum`: the same lemmas, and the `sc_check` value in `Storage.Save`'s contract.
  - `ActiveTime.FormatTime`: `ActiveTime.FormatTimeReadsBack`.
  - `Config.Find`: `Config.FindSpec` and `Config.FindIsSearch`.
  - `Game.Boot`: `Game.StartEstablishesInv` and `Game.StartVerifies`.
  - `Game.Step`: the `Game` lemmas.
- The bet field's value is taken as an already-read number. `Number(...) || 0` turning NaN into 0, and NaN in the arrow-key handlers, are not modelled.
- `JSON.parse` is modelled as returning a `GameState` or nothing. A truthy non-object value and the `Object.assign` merge of a partial saved object over `DEFAULT` (script.js:403) are not modelled.
- The start-up `loadState() || {...DEFAULT}` is kept (`Game.Boot`), but the shallow-copy aliasing of `DEFAULT.owned` is not.
- The once-a-second time-played display (script.js:320-327) is not modelled: it only writes page text nobody reads back. `formatTime` itself is modelled.
- `CONFIG.STATS_KEY` is not modelled: nothing reads or writes it. `CONFIG.SAVE_INTERVAL_MS` and the other timer periods only schedule steps.
- The `try`/`catch` in `periodicSave` is not modelled: with total collaborators nothing throws.
- `window._SC_DEBUG` is not modelled: it is a debugging handle.
- `Clicks.Click`: the text written to the clicks-per-second element is not modelled.

=== FILE: activetime.dfy ===
/**
 Foreground-time accounting (script.js:304-317) and its text rendering
 (script.js:329-337). The clock reading is an input.
 */
module ActiveTime {
  import opened Wrappers
  import opened Text
  import opened State
  import opened Storage

  /** startActiveTimer: when not already running, remember when the page came to the front. */
  function Show(w: World, now: int): (w': World)
    ensures w.rt.visibleActive ==> w' == w
    ensures !w.rt.visibleActive ==> w' == w.(rt := w.rt.(visibleActive := true, activeTimeStart := Some(now)))
  {
    if w.rt.visibleActive then w
    else w.(rt := w.rt.(visibleActive := true, activeTimeStart := Some(now)))
  }

  /** Whole seconds from `start` to `now`, `Math.floor((now - start) / 1000)`; Euclidean `/` by a positive divisor is that floor. */
  function ElapsedSeconds(start: int, now: int): (secs: int)
    ensures secs * 1000 <= now - start < (secs + 1) * 1000
    ensures start <= now <==> 0 <= secs
  {
    (now - start) / 1000
  }

  /**
   stopActiveTimer: when running, add the whole seconds since the start to
   activeTimeSeconds, forget the start, and save. A missing start reads as
   0, as `null` does in the source's subtraction.
   */
  function Hide(w: World, env: Env, now: int): (w': World)
    ensures !w.rt.visibleActive ==> w' == w
    ensures w.rt.visibleActive ==>
              && w'.rt == w.rt.(visibleActive := false, activeTimeStart := None)
              && w'.state == w.state.(activeTimeSeconds :=
                   w.state.activeTimeSeconds + ElapsedSeconds(w.rt.activeTimeStart.GetOr(0), now))
              && w'.storage == Save(w.storage, env, w'.state)
              && w'.pending == w.pending
  {
    if !w.rt.visibleActive then w
    else
      var start := w.rt.activeTimeStart.GetOr(0);
      var s := w.state.(activeTimeSeconds := w.state.activeTimeSeconds + ElapsedSeconds(start, now));
      w.(state := s, rt := w.rt.(visibleActive := false, activeTimeStart := None),
         storage := Save(w.storage, env, s))
  }

  /**
   A foreground spell from `t1` to `t2` adds its whole seconds, floored, to
   the counter. The counter grows exactly when the clock did not go back:
   a clock set back between the two events lowers it.
   */
  lemma ShowHideAccumulates(w: World, env: Env, t1: int, t2: int)
    requires !w.rt.visibleActive
    ensures var w' := Hide(Show(w, t1), env, t2);
            && w'.state.activeTimeSeconds == w.state.activeTimeSeconds + (t2 - t1) / 1000
            && (w'.state.activeTimeSeconds >= w.state.activeTimeSeconds <==> t1 <= t2)
            && w'.rt.visibleActive == w.rt.visibleActive
  {
    assert ElapsedSeconds(t1, t2) == (t2 - t1) / 1000;
  }

  /** formatTime: "Ns" below a minute, "Mm Ss" below an hour, "Hh Mm" from an hour up. */
  function FormatTime(sec: int): string {
    if sec < 60 then IntToString(sec) + "s"
    else
      var m := sec / 60;
      var s := sec % 60;
      if m < 60 then IntToString(m) + "m " + IntToString(s) + "s"
      else IntToString(m / 60) + "h " + IntToString(m % 60) + "m"
  }

  /** Reads "Ns", "Mm Ss" or "Hh Mm" back into seconds. */
  function ParseTime(t: string): Option<int> {
    match ReadInt(t)
    case None => None
    case Some((a, rest)) =>
      if rest == "s" then Some(a)
      else if |rest| >= 2 && rest[..2] == "m " then SecondField(a * 60, rest[2..], 1, "s")
      else if |rest| >= 2 && rest[..2] == "h " then SecondField(a * 3600, rest[2..], 60, "m")
      else None
  }

  /** The number after the first unit, scaled by `scale`, followed by exactly `unit`. */
  function SecondField(base: int, t: string, scale: int, unit: string): Option<int> {
    match ReadInt(t)
    case Some((b, tail)) => if tail == unit then Some(base + b * scale) else None
    case None => None
  }

  /** Once the first number and unit are read, the rest of the text decides the result. */
  lemma ParseTimeAfterUnit(t: string, a: int, unit: string, tail: string)
    requires ReadInt(t) == Some((a, unit + tail))
    requires unit == "m " || unit == "h "
    ensures ParseTime(t) == if unit == "m " then SecondField(a * 60, tail, 1, "s")
                            else SecondField(a * 3600, tail, 60, "m")
  {
    var rest := unit + tail;
    assert rest[..2] == unit && rest[2..] == tail;
    assert rest != "s" by {
      assert rest[0] != 's';
    }
  }

  lemma ReadsField(b: int, unit: string)
    requires unit == "s" || unit == "m"
    ensures ReadInt(IntToString(b) + unit) == Some((b, unit))
  {
    ReadIntOfString(b, unit);
  }

  lemma ReadsLeading(a: int, unit: string, tail: string)
    requires unit == "m " || unit == "h "
    ensures ReadInt(IntToString(a) + unit + tail) == Some((a, unit + tail))
  {
    assert IntToString(a) + unit + tail == IntToString(a) + (unit + tail);
    ReadIntOfString(a, unit + tail);
  }

  lemma ReadsMinutes(m: int, sec: int)
    ensures ParseTime(IntToString(m) + "m " + IntToString(sec) + "s") == Some(m * 60 + sec)
  {
    var tail := IntToString(sec) + "s";
    ReadsLeading(m, "m ", tail);
    assert IntToString(m) + "m " + IntToString(sec) + "s" == IntToString(m) + "m " + tail;
    ParseTimeAfterUnit(IntToString(m) + "m " + tail, m, "m ", tail);
    ReadsField(sec, "s");
  }

  lemma ReadsHours(h: int, m: int)
    ensures ParseTime(IntToString(h) + "h " + IntToString(m) + "m") == Some(h * 3600 + m * 60)
  {
    var tail := IntToString(m) + "m";
    ReadsLeading(h, "h ", tail);
    assert IntToString(h) + "h " + IntToString(m) + "m" == IntToString(h) + "h " + tail;
    ParseTimeAfterUnit(IntToString(h) + "h " + tail, h, "h ", tail);
    ReadsField(m, "m");
  }

  lemma ReadsBackSeconds(sec: int)
    requires sec < 60
    ensures ParseTime(FormatTime(sec)) == Some(sec)
  {
    ReadIntOfString(sec, "s");
  }

  lemma ReadsBackMinutes(sec: int)
    requires 60 <= sec < 3600
    ensures ParseTime(FormatTime(sec)) == Some(sec)
  {
    var m, s := sec / 60, sec % 60;
    assert FormatTime(sec) == IntToString(m) + "m " + IntToString(s) + "s";
    ReadsMinutes(m, s);
  }

  lemma ReadsBackHours(sec: int)
    requires sec >= 3600
    ensures ParseTime(FormatTime(sec)) == Some(sec - sec % 60)
  {
    var m := sec / 60;
    assert FormatTime(sec) == IntToString(m / 60) + "h " + IntToString(m % 60) + "m";
    ReadsHours(m / 60, m % 60);
  }

  /**
   formatTime loses nothing below an hour; from an hour up it drops exactly
   the seconds within the current minute.
   */
  lemma FormatTimeReadsBack(sec: int)
    ensures ParseTime(FormatTime(sec)) == Some(if sec < 3600 then sec else sec - sec % 60)
  {
    if sec < 60 {
      ReadsBackSeconds(sec);
    } else if sec < 3600 {
      ReadsBackMinutes(sec);
    } else {
      ReadsBackHours(sec);
    }
  }
}

=== FILE: casino.dfy ===
/**
 The coinflip minigame (script.js:239-270), split into placing a bet and
 the delayed reveal, plus the bet field's arrow-key steps
 (script.js:437-440). The coin and the player's pick are inputs.
 */
module Casino {
  import opened Config
  import opened State
  import opened Storage
  import opened Display

  /** The bet a field value yields: `Math.floor(Number(value) || 0)`, with the number already read. */
  function BetOf(input: real): int {
    input.Floor
  }

  /** The three guards of coinflip, in the source's order. */
  predicate BetAllowed(bet: int, meows: real) {
    && bet >= CasinoMinBet
    && bet <= CasinoMaxBet
    && !(bet as real > meows)
  }

  /**
   coinflip, up to the scheduled reveal. A locked game or a bet that fails
   a guard changes nothing; an accepted bet is debited at once, added to
   totalSpent, saved, and queued with the pick and the coin for the reveal.
   */
  function PlaceBet(w: World, env: Env, input: real, pick: Side, coin: Side): (w': World)
    ensures w' != w <==> !w.rt.locked && BetAllowed(BetOf(input), w.state.meows)
    ensures w' != w ==>
              var bet := BetOf(input);
              && w'.state == w.state.(meows := w.state.meows - bet as real,
                                      totalSpent := w.state.totalSpent + bet)
              && w'.state.meows >= 0.0
              && w'.pending == w.pending + [Flip(bet, pick, coin)]
              && w'.storage == Save(w.storage, env, w'.state)
              && w'.rt == w.rt.(display := Fmt(w'.state.meows))
  {
    if w.rt.locked then w
    else
      var bet := BetOf(input);
      if bet < CasinoMinBet then w
      else if bet > CasinoMaxBet then w
      else if bet as real > w.state.meows then w
      else
        var s := w.state.(meows := w.state.meows - bet as real, totalSpent := w.state.totalSpent + bet);
        assert s != w.state by {
          assert s.totalSpent != w.state.totalSpent;
        }
        w.(state := s, storage := Save(w.storage, env, s), rt := w.rt.(display := Fmt(s.meows)),
           pending := w.pending + [Flip(bet, pick, coin)])
  }

  /**
   The reveal 800 ms later, for the oldest queued bet (all delays are equal,
   so reveals run in placement order). A matching pick pays twice the bet
   and saves; a miss pays nothing. The display is refreshed either way.
   Neither the lock nor totalEarned is touched.
   */
  function ResolveFlip(w: World, env: Env): (w': World)
    ensures |w.pending| == 0 ==> w' == w
    ensures |w.pending| > 0 ==>
              var f := w.pending[0];
              && w'.pending == w.pending[1..]
              && w'.rt == w.rt.(display := Fmt(w'.state.meows))
              && (f.pick == f.result ==>
                    w'.state == w.state.(meows := w.state.meows + (2 * f.bet) as real)
                    && w'.storage == Save(w.storage, env, w'.state))
              && (f.pick != f.result ==> w'.state == w.state && w'.storage == w.storage)
  {
    if |w.pending| == 0 then w
    else
      var f := w.pending[0];
      var w1 := w.(pending := w.pending[1..]);
      if f.result == f.pick then
        var s := w.state.(meows := w.state.meows + (f.bet * 2) as real);
        w1.(state := s, storage := Save(w.storage, env, s), rt := w.rt.(display := Fmt(s.meows)))
      else
        w1.(rt := w.rt.(display := Fmt(w.state.meows)))
  }

  /**
   A bet placed and revealed nets +bet on a win and -bet on a loss, adds the
   bet to totalSpent either way, and never changes totalEarned.
   */
  lemma FlipNets(w: World, env: Env, input: real, pick: Side, coin: Side)
    requires |w.pending| == 0
    requires !w.rt.locked && BetAllowed(BetOf(input), w.state.meows)
    ensures var w' := ResolveFlip(PlaceBet(w, env, input, pick, coin), env);
            && w'.state.meows == (if pick == coin then w.state.meows + BetOf(input) as real
                                  else w.state.meows - BetOf(input) as real)
            && w'.state.totalSpent == w.state.totalSpent + BetOf(input)
            && w'.state.totalEarned == w.state.totalEarned
            && w'.state.owned == w.state.owned
            && |w'.pending| == 0
  {
    var w1 := PlaceBet(w, env, input, pick, coin);
    assert w1.pending == [Flip(BetOf(input), pick, coin)];
  }

  /** The reveal runs even in a locked game. */
  lemma ResolveIgnoresLock(w: World, env: Env)
    requires w.rt.locked && |w.pending| > 0
    requires w.pending[0].pick == w.pending[0].result && w.pending[0].bet > 0
    ensures ResolveFlip(w, env).state.meows > w.state.meows
  {
  }

  /** ArrowUp in the bet field: five more, capped at the maximum bet. */
  function BetUp(value: real): (r: real)
    ensures r <= CasinoMaxBet as real
    ensures r >= value <==> value <= CasinoMaxBet as real
    ensures r <= value + BetStep as real
    ensures r == value + BetStep as real || r == CasinoMaxBet as real
  {
    if value + BetStep as real < CasinoMaxBet as real then value + BetStep as real else CasinoMaxBet as real
  }

  /** ArrowDown in the bet field: five fewer, floored at the minimum bet. */
  function BetDown(value: real): (r: real)
    ensures r >= CasinoMinBet as real
    ensures r <= value <==> value >= CasinoMinBet as real
    ensures r >= value - BetStep as real
    ensures r == value - BetStep as real || r == CasinoMinBet as real
  {
    if value - BetStep as real > CasinoMinBet as real then value - BetStep as real else CasinoMinBet as real
  }

  /** Away from the caps, one step up and one step down cancel. */
  lemma BetStepsCancel(value: real)
    ensures CasinoMinBet as real <= value <= (CasinoMaxBet - BetStep) as real ==> BetDown(BetUp(value)) == value
    ensures (CasinoMinBet + BetStep) as real <= value <= CasinoMaxBet as real ==> BetUp(BetDown(value)) == value
  {
  }
}

=== FILE: clicks.dfy ===
/**
 Click admission (script.js:184-219) and the click-window smoothing tick
 (script.js:428-433): a 200 ms cooldown, then a trailing 2 s window of
 click timestamps whose rate above 7 clicks per second locks the game.
 */
module Clicks {
  import opened Config
  import opened State
  import opened Storage
  import opened Display

  /** `filter(t => t > cutoff)`: the timestamps after `cutoff`, in order. */
  function Recent(ts: seq<int>, cutoff: int): (r: seq<int>)
    ensures |r| <= |ts|
    ensures forall t :: t in r <==> t in ts && t > cutoff
  {
    if |ts| == 0 then []
    else if ts[0] > cutoff then [ts[0]] + Recent(ts[1..], cutoff)
    else Recent(ts[1..], cutoff)
  }

  /** The filter on one timestamp: kept exactly when it is after the cutoff. */
  lemma RecentOne(t: int, cutoff: int)
    ensures Recent([t], cutoff) == if t > cutoff then [t] else []
  {
    assert [t][1..] == [];
  }

  /** The filter keeps order: it distributes over concatenation. */
  lemma {:induction false} RecentAppend(a: seq<int>, b: seq<int>, cutoff: int)
    ensures Recent(a + b, cutoff) == Recent(a, cutoff) + Recent(b, cutoff)
    decreases |a|
  {
    if |a| == 0 {
      assert a + b == b;
    } else {
      assert (a + b)[0] == a[0];
      assert (a + b)[1..] == a[1..] + b;
      RecentAppend(a[1..], b, cutoff);
      if a[0] > cutoff {
        assert Recent(a + b, cutoff) == [a[0]] + (Recent(a[1..], cutoff) + Recent(b, cutoff));
      }
    }
  }

  /** Each timestamp is at least the cooldown after the one before it. */
  predicate Spaced(ts: seq<int>) {
    |ts| <= 1 || (ts[0] + ClickCooldownMs <= ts[1] && Spaced(ts[1..]))
  }

  /** The window is spaced and holds nothing later than the last admitted click. */
  predicate WindowOk(rt: Runtime) {
    && Spaced(rt.recentClicks)
    && forall t :: t in rt.recentClicks ==> t <= rt.lastClickAt
  }

  /** Every timestamp lies in the trailing window (now - 2000, now]. */
  predicate InWindow(ts: seq<int>, now: int) {
    forall t :: t in ts ==> now - ClickWindowMs < t <= now
  }

  lemma {:induction false} SpacedHeadBelow(ts: seq<int>)
    requires Spaced(ts) && |ts| >= 1
    ensures forall t :: t in ts[1..] ==> ts[0] + ClickCooldownMs <= t
  {
    if |ts| >= 2 {
      SpacedHeadBelow(ts[1..]);
      assert ts[1..] == [ts[1]] + ts[1..][1..];
    }
  }

  lemma {:induction false} SpacedAppend(ts: seq<int>, t: int)
    requires Spaced(ts)
    requires forall u :: u in ts ==> u + ClickCooldownMs <= t
    ensures Spaced(ts + [t])
  {
    if |ts| >= 1 {
      var longer := ts + [t];
      assert longer[1..] == ts[1..] + [t];
      assert forall u :: u in ts[1..] ==> u in ts;
      SpacedAppend(ts[1..], t);
      assert ts[0] in ts;
      assert longer[1] == if |ts| == 1 then t else ts[1];
    }
  }

  lemma {:induction false} RecentSpaced(ts: seq<int>, cutoff: int)
    requires Spaced(ts)
    ensures Spaced(Recent(ts, cutoff))
  {
    if |ts| >= 1 {
      RecentSpaced(ts[1..], cutoff);
      if ts[0] > cutoff {
        var rest := Recent(ts[1..], cutoff);
        if |rest| >= 1 {
          SpacedHeadBelow(ts);
          assert rest[0] in ts[1..];
          assert ([ts[0]] + rest)[1..] == rest;
        }
      }
    }
  }

  /** A spaced window spans at least one cooldown per gap. */
  lemma {:induction false} SpacedSpan(ts: seq<int>)
    requires Spaced(ts) && |ts| >= 1
    ensures ts[|ts| - 1] - ts[0] >= ClickCooldownMs * (|ts| - 1)
  {
    if |ts| >= 2 {
      SpacedSpan(ts[1..]);
    }
  }

  /** At most ten spaced timestamps fit in a 2000 ms half-open window. */
  lemma WindowHoldsAtMostTen(ts: seq<int>, now: int)
    requires Spaced(ts)
    requires InWindow(ts, now)
    ensures |ts| <= 10
  {
    if |ts| >= 1 {
      SpacedSpan(ts);
      assert ts[0] in ts && ts[|ts| - 1] in ts;
    }
  }

  /**
   Admitting `now` a cooldown after the last admitted click and trimming to
   the trailing 2 s leaves a spaced window inside (now - 2000, now].
   */
  lemma AdmitKeepsSpaced(ts: seq<int>, last: int, now: int)
    requires Spaced(ts)
    requires forall t :: t in ts ==> t <= last
    requires last + ClickCooldownMs <= now
    ensures Spaced(Recent(ts + [now], now - ClickWindowMs))
    ensures InWindow(Recent(ts + [now], now - ClickWindowMs), now)
    ensures |Recent(ts + [now], now - ClickWindowMs)| <= 10
  {
    var window := Recent(ts + [now], now - ClickWindowMs);
    SpacedAppend(ts, now);
    RecentSpaced(ts + [now], now - ClickWindowMs);
    assert forall t :: t in window ==> t in ts + [now];
    WindowHoldsAtMostTen(window, now);
  }

  /**
   registerClick at time `now`. A locked game, or a click within the
   cooldown of the last admitted one (including a clock that went
   backwards), changes nothing. Otherwise the click is recorded, the window
   trimmed to the last 2 s, and either the rate check locks the game or the
   multiplier is paid out and the state saved.
   */
  function Click(w: World, env: Env, now: int): (w': World)
    ensures w.rt.locked || now - w.rt.lastClickAt < ClickCooldownMs ==> w' == w
    ensures !w.rt.locked && now - w.rt.lastClickAt >= ClickCooldownMs ==>
              w'.rt.lastClickAt == now && now in w'.rt.recentClicks
    ensures !w.rt.locked && now - w.rt.lastClickAt >= ClickCooldownMs ==>
              var window := Recent(w.rt.recentClicks + [now], now - ClickWindowMs);
              && w'.rt.recentClicks == window
              && (w'.rt.locked <==> (|window| as real) / 2.0 > AutoclickRatePerSec as real)
    ensures w'.rt.visibleActive == w.rt.visibleActive && w'.rt.activeTimeStart == w.rt.activeTimeStart
    ensures !w.rt.locked && now - w.rt.lastClickAt >= ClickCooldownMs && !w'.rt.locked ==>
              && w'.state == w.state.(meows := w.state.meows + w.state.multiplier,
                                     totalEarned := w.state.totalEarned + w.state.multiplier.Floor)
              && w'.storage == Save(w.storage, env, w'.state)
              && w'.rt.display == Fmt(w'.state.meows)
    ensures w'.rt.locked && !w.rt.locked ==> w'.rt.display == w.rt.display
    ensures w'.pending == w.pending && w'.rt.tamperCount == w.rt.tamperCount
    ensures w.rt.locked ==> w'.rt.locked
    ensures w'.rt.locked && !w.rt.locked ==> w'.state == w.state && w'.storage == w.storage
    ensures w'.state != w.state ==>
              && w'.state == w.state.(meows := w.state.meows + w.state.multiplier,
                                     totalEarned := w.state.totalEarned + w.state.multiplier.Floor)
              && w'.storage == Save(w.storage, env, w'.state)
              && w'.rt.display == Fmt(w'.state.meows)
  {
    if w.rt.locked then w
    else if now - w.rt.lastClickAt < ClickCooldownMs then w
    else
      var window := Recent(w.rt.recentClicks + [now], now - ClickWindowMs);
      var rt := w.rt.(lastClickAt := now, recentClicks := window);
      if (|window| as real) / 2.0 > AutoclickRatePerSec as real then
        w.(rt := rt.(locked := true))
      else
        var gain := 1.0 * w.state.multiplier;
        var s := w.state.(meows := w.state.meows + gain,
                          totalEarned := (w.state.totalEarned as real + gain).Floor);
        w.(state := s, rt := rt.(display := Fmt(s.meows)), storage := Save(w.storage, env, s))
  }

  /**
   Timestamps admitted by Click are strictly increasing and a cooldown
   apart, and the trimmed window lies inside the last 2 s.
   */
  lemma ClickKeepsWindow(w: World, env: Env, now: int)
    requires WindowOk(w.rt)
    ensures WindowOk(Click(w, env, now).rt)
    ensures Click(w, env, now) != w ==> InWindow(Click(w, env, now).rt.recentClicks, now)
  {
    if !w.rt.locked && now - w.rt.lastClickAt >= ClickCooldownMs {
      AdmitKeepsSpaced(w.rt.recentClicks, w.rt.lastClickAt, now);
    }
  }

  /**
   The rate lock is unreachable: with the cooldown in force the window never
   holds more than 10 clicks, so the rate is at most 5 per second and never
   above 7. A click never sets the lock.
   */
  lemma ClickNeverRateLocks(w: World, env: Env, now: int)
    requires WindowOk(w.rt)
    ensures Click(w, env, now).rt.locked == w.rt.locked
  {
    if !w.rt.locked && now - w.rt.lastClickAt >= ClickCooldownMs {
      var window := Recent(w.rt.recentClicks + [now], now - ClickWindowMs);
      AdmitKeepsSpaced(w.rt.recentClicks, w.rt.lastClickAt, now);
      assert (|window| as real) / 2.0 <= 5.0;
    }
  }

  /** An admitted click is paid exactly the multiplier, and totalEarned grows by its floor. */
  lemma ClickPays(w: World, env: Env, now: int)
    requires WindowOk(w.rt)
    requires !w.rt.locked && now - w.rt.lastClickAt >= ClickCooldownMs
    ensures Click(w, env, now).state.meows == w.state.meows + w.state.multiplier
    ensures Click(w, env, now).state.totalEarned == w.state.totalEarned + w.state.multiplier.Floor
    ensures Click(w, env, now).state.owned == w.state.owned
    ensures Click(w, env, now).state.totalSpent == w.state.totalSpent
  {
    ClickNeverRateLocks(w, env, now);
  }

  /** The 300 ms smoothing tick: drops timestamps older than 2 s, nothing else. */
  function SmoothTick(w: World, now: int): (w': World)
    ensures w'.state == w.state && w'.storage == w.storage && w'.pending == w.pending
    ensures w'.rt == w.rt.(recentClicks := w'.rt.recentClicks)
    ensures forall t :: t in w'.rt.recentClicks <==> t in w.rt.recentClicks && t > now - ClickWindowMs
    ensures w'.rt.recentClicks == Recent(w.rt.recentClicks, now - ClickWindowMs)
  {
    w.(rt := w.rt.(recentClicks := Recent(w.rt.recentClicks, now - ClickWindowMs)))
  }

  lemma SmoothKeepsWindow(w: World, now: int)
    requires WindowOk(w.rt)
    ensures WindowOk(SmoothTick(w, now).rt)
  {
    RecentSpaced(w.rt.recentClicks, now - ClickWindowMs);
  }
}

=== FILE: config.dfy ===
/** The game's fixed configuration and its shop catalogue (script.js:8-17, 79-84). */
module Config {
  import opened Wrappers

  const ClickCooldownMs: int := 200
  const AutoclickRatePerSec: int := 7
  const CasinoMinBet: int := 5
  const CasinoMaxBet: int := 200000
  const ChecksumKey: string := "sc_check"
  const StorageKey: string := "sc_state"

  /** Width of the trailing click window, a literal in the click handler. */
  const ClickWindowMs: int := 2000
  /** Mismatches the display monitor tolerates before it locks. */
  const TamperLimit: int := 3
  /** Step of the bet field's arrow keys. */
  const BetStep: int := 5

  /** A one-time upgrade: buying it multiplies the per-click gain by `mult`. */
  datatype Item = Item(id: string, price: int, mult: real)

  const Shop: seq<Item> := [
    Item("m_1.5", 100, 1.5),
    Item("m_2", 500, 2.0),
    Item("m_3", 2000, 3.0),
    Item("m_5", 10000, 5.0)
  ]

  /**
   The catalogue entry whose id is `id` (Array.prototype.find over Shop),
   unrolled over the four entries.
   */
  function Find(id: string): Option<Item> {
    if id == Shop[0].id then Some(Shop[0])
    else if id == Shop[1].id then Some(Shop[1])
    else if id == Shop[2].id then Some(Shop[2])
    else if id == Shop[3].id then Some(Shop[3])
    else None
  }

  /** Find returns the first entry carrying `id`, and nothing exactly when no entry does. */
  lemma FindSpec(id: string)
    ensures Find(id).Some? ==> exists i :: 0 <= i < |Shop| && Shop[i] == Find(id).value && Shop[i].id == id
                                            && forall j :: 0 <= j < i ==> Shop[j].id != id
    ensures Find(id).None? <==> forall i :: 0 <= i < |Shop| ==> Shop[i].id != id
  {
  }

  /** Array.prototype.find over any catalogue: the first entry carrying `id`. */
  function FirstWithId(items: seq<Item>, id: string): (r: Option<Item>)
    ensures r.Some? ==> r.value in items && r.value.id == id
    ensures r.None? <==> forall i :: 0 <= i < |items| ==> items[i].id != id
  {
    if |items| == 0 then None
    else if items[0].id == id then Some(items[0])
    else FirstWithId(items[1..], id)
  }

  /** The unrolled lookup is the search over the catalogue. */
  lemma FindIsSearch(id: string)
    ensures Find(id) == FirstWithId(Shop, id)
  {
    assert Shop[1..][1..][1..][1..] == [];
  }

  predicate Known(id: string) {
    Find(id).Some?
  }

  /** Every catalogue entry has a positive price and a multiplier above one. */
  lemma ShopWellFormed()
    ensures forall i :: 0 <= i < |Shop| ==> Shop[i].price > 0 && Shop[i].mult >= 1.5
  {
  }

  /** Multiplier an owned id contributes; an id outside the catalogue contributes nothing. */
  function MultOf(id: string): (m: real)
    ensures m >= 1.0
    ensures Known(id) ==> m >= 1.5
  {
    match Find(id)
    case Some(item) => ShopWellFormed(); item.mult
    case None => 1.0
  }

  /** The multipliers of a list of owned ids, in order. */
  function Mults(owned: seq<string>): (ms: seq<real>)
    ensures |ms| == |owned|
    ensures forall i :: 0 <= i < |owned| ==> ms[i] == MultOf(owned[i])
  {
    seq(|owned|, i requires 0 <= i < |owned| => MultOf(owned[i]))
  }

  function ProductOf(ms: seq<real>): real {
    if |ms| == 0 then 1.0 else ms[0] * ProductOf(ms[1..])
  }

  /** Product of the multipliers of a list of owned ids. */
  function Product(owned: seq<string>): real {
    ProductOf(Mults(owned))
  }

  lemma {:induction false} ProductOfAppend(ms: seq<real>, m: real)
    ensures ProductOf(ms + [m]) == ProductOf(ms) * m
  {
    var longer := ms + [m];
    if |ms| > 0 {
      assert longer[1..] == ms[1..] + [m];
      ProductOfAppend(ms[1..], m);
      assert ProductOf(longer) == ms[0] * ProductOf(longer[1..]);
    } else {
      assert longer[1..] == [];
    }
  }

  lemma MultsAppend(owned: seq<string>, id: string)
    ensures Mults(owned + [id]) == Mults(owned) + [MultOf(id)]
  {
    var longer, m := owned + [id], MultOf(id);
    var ms := Mults(owned);
    forall i | 0 <= i < |longer|
      ensures Mults(longer)[i] == (ms + [m])[i]
    {
      if i < |owned| {
        assert longer[i] == owned[i];
      }
    }
  }

  /** Buying one more upgrade multiplies the product by that upgrade's multiplier. */
  lemma ProductAppend(owned: seq<string>, id: string)
    ensures Product(owned + [id]) == Product(owned) * MultOf(id)
  {
    var ms, m := Mults(owned), MultOf(id);
    MultsAppend(owned, id);
    ProductOfAppend(ms, m);
    assert Product(owned + [id]) == ProductOf(ms + [m]);
  }

  lemma {:induction false} ProductOfAtLeastOne(ms: seq<real>)
    requires forall i :: 0 <= i < |ms| ==> ms[i] >= 1.0
    ensures ProductOf(ms) >= 1.0
  {
    if |ms| > 0 {
      ProductOfAtLeastOne(ms[1..]);
      var a, b := ms[0], ProductOf(ms[1..]);
      assert a * b >= 1.0 * b;
    }
  }

  /** A product of catalogue multipliers is never below one. */
  lemma ProductAtLeastOne(owned: seq<string>)
    ensures Product(owned) >= 1.0
  {
    ProductOfAtLeastOne(Mults(owned));
  }
}

=== FILE: display.dfy ===
/**
 The balance display and the monitor that polices it (script.js:112-117,
 349-364): `fmt` renders a balance, the monitor strips the rendered text
 down to digits, 'K', 'M' and '.', and counts every disagreement.
 */
module Display {
  import opened Text
  import opened Config
  import opened State

  /** fmt: 'B', 'M' and 'k' suffixes from 1e9, 1e6 and 1e3 upward, the floored integer below. */
  function Fmt(n: real): (r: string)
    ensures |r| >= 1
    ensures n >= 1000000000.0 ==> r[|r| - 1] == 'B'
    ensures 1000000.0 <= n < 1000000000.0 ==> r[|r| - 1] == 'M'
    ensures 1000.0 <= n < 1000000.0 ==> r[|r| - 1] == 'k'
    ensures n < 1000.0 ==> r == IntToString(n.Floor)
  {
    if n >= 1000000000.0 then ToFixed(n / 1000000000.0, 2) + "B"
    else if n >= 1000000.0 then ToFixed(n / 1000000.0, 2) + "M"
    else if n >= 1000.0 then ToFixed(n / 1000.0, 1) + "k"
    else IntToString(n.Floor)
  }

  /** Characters the monitor's regular expression `[^\dKM\.]` leaves in place. */
  predicate Kept(c: char) {
    IsDigit(c) || c == 'K' || c == 'M' || c == '.'
  }

  predicate AllKept(s: string) {
    forall i :: 0 <= i < |s| ==> Kept(s[i])
  }

  /** The monitor's `replace(/[^\dKM\.]/g, '')`: drops every other character, keeping order. */
  function Strip(s: string): (r: string)
    ensures AllKept(r)
    ensures |r| <= |s|
    ensures r == s <==> AllKept(s)
  {
    if |s| == 0 then ""
    else
      var rest := Strip(s[1..]);
      if Kept(s[0]) then
        assert s == [s[0]] + s[1..];
        [s[0]] + rest
      else rest
  }

  /** The filter on one character: kept or dropped. */
  lemma StripOne(c: char)
    ensures Strip([c]) == if Kept(c) then [c] else []
  {
    assert [c][1..] == [];
  }

  /** The filter works character by character: it distributes over concatenation. */
  lemma {:induction false} StripAppend(a: string, b: string)
    ensures Strip(a + b) == Strip(a) + Strip(b)
    decreases |a|
  {
    if |a| == 0 {
      assert a + b == b;
    } else {
      assert (a + b)[0] == a[0];
      assert (a + b)[1..] == a[1..] + b;
      StripAppend(a[1..], b);
      if Kept(a[0]) {
        assert Strip(a + b) == [a[0]] + (Strip(a[1..]) + Strip(b));
      }
    }
  }

  /** Balances whose rendering survives Strip unchanged. */
  predicate WellShown(m: real) {
    (0.0 <= m < 1000.0) || (1000000.0 <= m < 1000000000.0)
  }

  lemma FixedIsKept(x: real, places: nat, suffix: char)
    requires x >= 0.0
    ensures AllKept(ToFixed(x, places) + [suffix]) <==> Kept(suffix)
  {
    var r := ToFixed(x, places) + [suffix];
    assert r[|r| - 1] == suffix;
  }

  /**
   Strip(fmt(m)) equals fmt(m) exactly on [0, 1e3) and [1e6, 1e9): the 'k'
   and 'B' suffixes and a minus sign are stripped, the 'M' suffix is not.
   */
  lemma StripFmtIff(m: real)
    ensures Strip(Fmt(m)) == Fmt(m) <==> WellShown(m)
  {
    var r := Fmt(m);
    if m >= 1000000000.0 {
      FixedIsKept(m / 1000000000.0, 2, 'B');
    } else if m >= 1000000.0 {
      FixedIsKept(m / 1000000.0, 2, 'M');
    } else if m >= 1000.0 {
      FixedIsKept(m / 1000.0, 1, 'k');
    } else if m < 0.0 {
      assert r[0] == '-' && !Kept(r[0]);
    } else {
      assert AllDigits(r);
    }
  }

  /**
   One 500 ms tick of the display monitor. A stripped display that differs
   from fmt(meows) counts as tampering: the counter grows, the display is
   restored, and more than three counts lock the game. The lock flag is
   never cleared here.
   */
  function TamperTick(w: World): (w': World)
    ensures w'.state == w.state && w'.storage == w.storage && w'.pending == w.pending
    ensures w'.rt == w.rt.(tamperCount := w'.rt.tamperCount, display := w'.rt.display, locked := w'.rt.locked)
    ensures Strip(w.rt.display) != Fmt(w.state.meows) <==> w'.rt.tamperCount == w.rt.tamperCount + 1
    ensures Strip(w.rt.display) != Fmt(w.state.meows) ==> w'.rt.display == Fmt(w.state.meows)
    ensures w'.rt.locked == (w.rt.locked || (Strip(w.rt.display) != Fmt(w.state.meows) && w.rt.tamperCount + 1 > TamperLimit))
    ensures Strip(w.rt.display) == Fmt(w.state.meows) ==> w' == w
  {
    var expected := Fmt(w.state.meows);
    if Strip(w.rt.display) != expected then
      var count := w.rt.tamperCount + 1;
      w.(rt := w.rt.(tamperCount := count, display := expected,
                     locked := if count > TamperLimit then true else w.rt.locked))
    else w
  }

  /**
   Outside the well-shown ranges every tick counts as tampering, whatever the
   display holds: Strip can never produce the 'k', 'B' or '-' that fmt emits.
   */
  lemma TamperMisfires(w: World)
    requires !WellShown(w.state.meows)
    ensures TamperTick(w).rt.tamperCount == w.rt.tamperCount + 1
  {
    StripFmtIff(w.state.meows);
    assert !AllKept(Fmt(w.state.meows));
    assert Strip(w.rt.display) != Fmt(w.state.meows);
  }

  /** Inside the well-shown ranges a display restored from the state passes the monitor. */
  lemma TamperQuietAfterRender(w: World)
    requires WellShown(w.state.meows)
    requires w.rt.display == Fmt(w.state.meows)
    ensures TamperTick(w) == w
  {
    StripFmtIff(w.state.meows);
  }

  /** With a balance in [1e3, 1e6) or at least 1e9, four ticks of the monitor lock the game. */
  lemma MisfireLocksWithinFourTicks(w: World)
    requires !WellShown(w.state.meows)
    ensures TamperTick(TamperTick(TamperTick(TamperTick(w)))).rt.locked
  {
    var w1 := TamperTick(w);
    TamperMisfires(w);
    var w2 := TamperTick(w1);
    TamperMisfires(w1);
    var w3 := TamperTick(w2);
    TamperMisfires(w2);
    TamperMisfires(w3);
  }
}

=== FILE: game.dfy ===
/**
 The page as a whole: start-up (script.js:87, 392-404), the periodic
 integrity save (script.js:285-300), the quick auto-save (script.js:446),
 and one `Step` per event handler or timer callback, each run atomically.
 The lock is a one-way latch, and the game invariant holds along every run.
 */
module Game {
  import opened Config
  import opened State
  import opened Storage
  import opened Display
  import opened Clicks
  import opened Shop
  import opened Casino
  import opened ActiveTime

  /** The page just loaded: `loadState() || DEFAULT`, a fresh runtime, the store as found. */
  function Boot(store: Store, env: Env, markup: string): World {
    World(Load(store, env).GetOr(Default), FreshRuntime(markup), store, [])
  }

  /**
   init: a store that fails verification is wiped and replaced by a saved
   default state; a store that verifies supplies the state, if it holds
   one. The display is rendered either way.
   */
  function Init(w: World, env: Env): (w': World)
    ensures !Verify(w.storage, env) ==>
              && w'.state == Default
              && w'.storage == Save(w.storage - {StorageKey, ChecksumKey}, env, Default)
    ensures Verify(w.storage, env) ==>
              && w'.storage == w.storage
              && w'.state == Load(w.storage, env).GetOr(w.state)
    ensures w'.rt == w.rt.(display := Fmt(w'.state.meows)) && w'.pending == w.pending
  {
    if !Verify(w.storage, env) then
      var cleared := w.storage - {StorageKey, ChecksumKey};
      w.(state := Default, storage := Save(cleared, env, Default), rt := w.rt.(display := Fmt(Default.meows)))
    else
      var s := Load(w.storage, env).GetOr(w.state);
      w.(state := s, rt := w.rt.(display := Fmt(s.meows)))
  }

  function Start(store: Store, env: Env, markup: string): World {
    Init(Boot(store, env, markup), env)
  }

  /** After start-up the store verifies, whichever branch init took. */
  lemma StartVerifies(store: Store, env: Env, markup: string)
    requires RoundTrips(env, Default)
    ensures Verify(Start(store, env, markup).storage, env)
  {
    if !Verify(store, env) {
      SaveThenVerify(store - {StorageKey, ChecksumKey}, env, Default);
    }
  }

  /**
   periodicSave: a store that fails verification locks the game and is left
   alone; otherwise the current state is saved. The lock is not consulted.
   */
  function IntegritySave(w: World, env: Env): (w': World)
    ensures w'.state == w.state && w'.pending == w.pending
    ensures !Verify(w.storage, env) ==> w'.rt.locked && w'.storage == w.storage
    ensures !Verify(w.storage, env) ==> w'.rt == w.rt.(locked := true)
    ensures Verify(w.storage, env) ==> w'.rt == w.rt && w'.storage == Save(w.storage, env, w.state)
    ensures Verify(w.storage, env) && RoundTrips(env, w.state) ==> Verify(w'.storage, env)
  {
    if !Verify(w.storage, env) then w.(rt := w.rt.(locked := true))
    else
      var w' := w.(storage := Save(w.storage, env, w.state));
      if RoundTrips(env, w.state) then SaveThenVerify(w.storage, env, w.state); w' else w'
  }

  /** The five-second auto-save: saves unconditionally. */
  function AutoSave(w: World, env: Env): (w': World)
    ensures w'.state == w.state && w'.rt == w.rt && w'.pending == w.pending
    ensures w'.storage == Save(w.storage, env, w.state)
    ensures w'.storage[ChecksumKey] == Checksum(env, w.state)
    ensures w'.storage.Keys == w.storage.Keys + {StorageKey, ChecksumKey}
    ensures w'.storage[StorageKey] == env.serialize(w.state)
    ensures forall k :: k in w.storage && k != StorageKey && k != ChecksumKey ==> w'.storage[k] == w.storage[k]
    ensures RoundTrips(env, w.state) ==> Verify(w'.storage, env)
  {
    var w' := w.(storage := Save(w.storage, env, w.state));
    if RoundTrips(env, w.state) then SaveThenVerify(w.storage, env, w.state); w' else w'
  }

  /**
   Everything that can happen to a running page. The last two are outside
   interference: an edit of the balance text in the page, and an edit of the
   durable store.
   */
  datatype Event =
    | ClickAt(now: int)
    | BuyPressed(id: string)
    | BetPlaced(input: real, pick: Side, coin: Side)
    | FlipRevealed
    | ResetPressed(confirmed: bool)
    | IntegrityTick
    | AutoSaveTick
    | Shown(now: int)
    | Hidden(now: int)
    | DisplayTick
    | ClickWindowTick(now: int)
    | DisplayEdited(text: string)
    | StorageEdited(store: Store)

  function Step(w: World, env: Env, e: Event): World {
    match e
    case ClickAt(now) => Click(w, env, now)
    case BuyPressed(id) => BuyButton(w, env, id)
    case BetPlaced(input, pick, coin) => PlaceBet(w, env, input, pick, coin)
    case FlipRevealed => ResolveFlip(w, env)
    case ResetPressed(confirmed) => ResetUpgrades(w, env, confirmed)
    case IntegrityTick => IntegritySave(w, env)
    case AutoSaveTick => AutoSave(w, env)
    case Shown(now) => Show(w, now)
    case Hidden(now) => Hide(w, env, now)
    case DisplayTick => TamperTick(w)
    case ClickWindowTick(now) => SmoothTick(w, now)
    case DisplayEdited(text) => w.(rt := w.rt.(display := text))
    case StorageEdited(store) => w.(storage := store)
  }

  /** The events run in order. */
  function Run(w: World, env: Env, events: seq<Event>): World
    decreases |events|
  {
    if |events| == 0 then w else Run(Step(w, env, events[0]), env, events[1..])
  }

  /** The lock is a latch: no event clears it. */
  lemma LockLatch(w: World, env: Env, e: Event)
    requires w.rt.locked
    ensures Step(w, env, e).rt.locked
  {
  }

  /** A locked game refuses clicks, purchases through the buttons and new bets outright. */
  lemma LockedRefuses(w: World, env: Env, e: Event)
    requires w.rt.locked
    requires e.ClickAt? || e.BuyPressed? || e.BetPlaced?
    ensures Step(w, env, e) == w
  {
  }

  /** Reset-upgrades does not check the lock. */
  lemma ResetIgnoresLock(w: World, env: Env)
    requires w.rt.locked && |w.state.owned| > 0
    ensures Step(w, env, ResetPressed(true)).state.owned == []
    ensures Step(w, env, ResetPressed(true)).state != w.state
  {
  }

  /** What every reachable page satisfies. */
  predicate Inv(w: World) {
    && w.state.meows >= 0.0
    && Consistent(w.state)
    && NoDuplicates(w.state.owned)
    && WindowOk(w.rt)
    && (forall i :: 0 <= i < |w.pending| ==> w.pending[i].bet >= CasinoMinBet)
    && (w.rt.tamperCount > TamperLimit ==> w.rt.locked)
  }

  /** A state a loaded blob may supply without breaking the invariant. */
  predicate Sane(s: GameState) {
    s.meows >= 0.0 && Consistent(s) && NoDuplicates(s.owned)
  }

  lemma StartEstablishesInv(store: Store, env: Env, markup: string)
    requires Load(store, env).Some? ==> Sane(Load(store, env).value)
    ensures Inv(Start(store, env, markup))
  {
    DefaultConsistent();
  }

  lemma ClickKeepsInv(w: World, env: Env, now: int)
    requires Inv(w)
    ensures Inv(Click(w, env, now))
  {
    ClickKeepsWindow(w, env, now);
    ProductAtLeastOne(w.state.owned);
  }

  lemma BuyKeepsInv(w: World, env: Env, id: string)
    requires Inv(w)
    ensures Inv(BuyButton(w, env, id))
  {
    BuyButtonKeepsNoDuplicates(w, env, id);
  }

  lemma ResolveKeepsInv(w: World, env: Env)
    requires Inv(w)
    ensures Inv(ResolveFlip(w, env))
  {
    if |w.pending| > 0 {
      assert w.pending[0].bet >= CasinoMinBet;
      forall i | 0 <= i < |w.pending| - 1
        ensures w.pending[1..][i].bet >= CasinoMinBet
      {
        assert w.pending[1..][i] == w.pending[i + 1];
      }
    }
  }

  lemma BetKeepsInv(w: World, env: Env, input: real, pick: Side, coin: Side)
    requires Inv(w)
    ensures Inv(PlaceBet(w, env, input, pick, coin))
  {
    var w' := PlaceBet(w, env, input, pick, coin);
    if w' != w {
      forall i | 0 <= i < |w'.pending|
        ensures w'.pending[i].bet >= CasinoMinBet
      {
        if i < |w.pending| {
          assert w'.pending[i] == w.pending[i];
        }
      }
    }
  }

  /** Every event keeps the invariant. */
  lemma StepKeepsInv(w: World, env: Env, e: Event)
    requires Inv(w)
    ensures Inv(Step(w, env, e))
  {
    match e
    case ClickAt(now) => ClickKeepsInv(w, env, now);
    case BuyPressed(id) => BuyKeepsInv(w, env, id);
    case BetPlaced(input, pick, coin) => BetKeepsInv(w, env, input, pick, coin);
    case FlipRevealed => ResolveKeepsInv(w, env);
    case ResetPressed(confirmed) =>
    case IntegrityTick =>
    case AutoSaveTick =>
    case Shown(now) =>
    case Hidden(now) =>
    case DisplayTick =>
    case ClickWindowTick(now) => SmoothKeepsWindow(w, now);
    case DisplayEdited(text) =>
    case StorageEdited(store) =>
  }

  lemma {:induction false} RunKeepsInv(w: World, env: Env, events: seq<Event>)
    requires Inv(w)
    ensures Inv(Run(w, env, events))
    decreases |events|
  {
    if |events| > 0 {
      StepKeepsInv(w, env, events[0]);
      RunKeepsInv(Step(w, env, events[0]), env, events[1..]);
    }
  }

  lemma {:induction false} RunKeepsLock(w: World, env: Env, events: seq<Event>)
    requires w.rt.locked
    ensures Run(w, env, events).rt.locked
    decreases |events|
  {
    if |events| > 0 {
      LockLatch(w, env, events[0]);
      RunKeepsLock(Step(w, env, events[0]), env, events[1..]);
    }
  }

  /**
   On a page in the invariant, only the display monitor and the integrity
   check ever set the lock: a click never does.
   */
  lemma LockSources(w: World, env: Env, e: Event)
    requires Inv(w) && !w.rt.locked
    requires Step(w, env, e).rt.locked
    ensures e.DisplayTick? || e.IntegrityTick?
  {
    if e.ClickAt? {
      ClickNeverRateLocks(w, env, e.now);
    }
  }

  /** Spending and earning totals never go down once the page is running. */
  lemma StepTotalsGrow(w: World, env: Env, e: Event)
    requires Inv(w)
    ensures Step(w, env, e).state.totalEarned >= w.state.totalEarned
    ensures Step(w, env, e).state.totalSpent >= w.state.totalSpent
  {
    match e
    case ClickAt(now) => ProductAtLeastOne(w.state.owned);
    case BuyPressed(id) => ShopWellFormed();
    case FlipRevealed =>
    case _ =>
  }

  /**
   Without outside edits of the store, and with a faithful JSON codec, the
   store verifies after every event; in particular the integrity check
   never locks.
   */
  lemma StepKeepsVerified(w: World, env: Env, e: Event)
    requires Faithful(env)
    requires Verify(w.storage, env)
    requires !e.StorageEdited?
    ensures Verify(Step(w, env, e).storage, env)
    ensures e.IntegrityTick? ==> Step(w, env, e).rt.locked == w.rt.locked
  {
    var w' := Step(w, env, e);
    if w'.storage != w.storage {
      assert RoundTrips(env, w'.state);
      SaveThenVerify(w.storage, env, w'.state);
    }
  }

  /**
   An edited store that no longer verifies locks the game when the
   integrity tick is the next event.
   */
  lemma EditedStoreLocks(w: World, env: Env, store: Store)
    requires !Verify(store, env)
    ensures Run(w, env, [StorageEdited(store), IntegrityTick]).rt.locked
    ensures Run(w, env, [StorageEdited(store), IntegrityTick]).state == w.state
  {
    var w1 := Step(w, env, StorageEdited(store));
    assert [StorageEdited(store), IntegrityTick][1..] == [IntegrityTick];
    assert Run(w, env, [StorageEdited(store), IntegrityTick]) == Run(w1, env, [IntegrityTick]);
    assert Run(w1, env, [IntegrityTick]) == IntegritySave(w1, env);
  }

  /**
   A save between the edit and the integrity tick hides the edit: the
   auto-save re-signs the in-memory state over the edited blob without
   verifying first, so the tick that follows finds a store that verifies.
   */
  lemma AutoSaveHidesEdit(w: World, env: Env, store: Store)
    requires RoundTrips(env, w.state)
    requires !w.rt.locked
    ensures !Run(w, env, [StorageEdited(store), AutoSaveTick, IntegrityTick]).rt.locked
  {
    var es := [StorageEdited(store), AutoSaveTick, IntegrityTick];
    var w1 := Step(w, env, StorageEdited(store));
    var w2 := Step(w1, env, AutoSaveTick);
    assert es[1..] == [AutoSaveTick, IntegrityTick];
    assert es[1..][1..] == [IntegrityTick];
    assert Run(w, env, es) == Run(w1, env, es[1..]);
    assert Run(w1, env, es[1..]) == Run(w2, env, [IntegrityTick]);
    assert Run(w2, env, [IntegrityTick]) == IntegritySave(w2, env);
    assert Verify(w2.storage, env);
  }
}

=== FILE: shop.dfy ===
/**
 The upgrade shop (script.js:141-181) and the reset-upgrades button
 (script.js:367-374).
 */
module Shop {
  import opened Wrappers
  import opened Config
  import opened State
  import opened Storage
  import opened Display

  /**
   buyItem: an unknown id or an unaffordable price changes nothing;
   otherwise the price is debited and added to totalSpent, the id is
   appended to `owned`, the multiplier is multiplied by the item's, and the
   state is saved. Neither the lock nor prior ownership is consulted.
   */
  function BuyItem(w: World, env: Env, id: string): (w': World)
    ensures Find(id).None? ==> w' == w
    ensures Find(id).Some? && w.state.meows < Find(id).value.price as real ==> w' == w
    ensures Find(id).Some? && w.state.meows >= Find(id).value.price as real ==>
              var item := Find(id).value;
              && w'.state.meows == w.state.meows - item.price as real >= 0.0
              && w'.state.totalSpent == w.state.totalSpent + item.price
              && w'.state.owned == w.state.owned + [id]
              && w'.state.multiplier == w.state.multiplier * item.mult
              && w'.state.totalEarned == w.state.totalEarned
              && w'.state.activeTimeSeconds == w.state.activeTimeSeconds
              && w'.storage == Save(w.storage, env, w'.state)
    ensures Find(id).Some? && w.state.meows >= Find(id).value.price as real ==> w'.rt == w.rt.(display := Fmt(w'.state.meows))
    ensures w'.pending == w.pending
  {
    match Find(id)
    case None => w
    case Some(item) =>
      if w.state.meows < item.price as real then w
      else
        var s := w.state.(meows := w.state.meows - item.price as real,
                          totalSpent := w.state.totalSpent + item.price,
                          owned := w.state.owned + [item.id],
                          multiplier := w.state.multiplier * item.mult);
        w.(state := s, storage := Save(w.storage, env, s), rt := w.rt.(display := Fmt(s.meows)))
  }

  /** A purchase keeps the multiplier equal to the product over the owned list. */
  lemma BuyKeepsConsistent(w: World, env: Env, id: string)
    requires Consistent(w.state)
    ensures Consistent(BuyItem(w, env, id).state)
  {
    var w' := BuyItem(w, env, id);
    if w' != w {
      ProductAppend(w.state.owned, id);
      assert w'.state.owned[|w.state.owned|] == id;
    }
  }

  /**
   buyItem does not check ownership: buying an owned, affordable upgrade
   again debits its price once more and appends a duplicate id.
   */
  lemma BuyItemRepurchases(w: World, env: Env, id: string)
    requires id in w.state.owned && Find(id).Some?
    requires w.state.meows >= Find(id).value.price as real
    ensures BuyItem(w, env, id).state.meows < w.state.meows
    ensures !NoDuplicates(BuyItem(w, env, id).state.owned)
  {
    var owned' := BuyItem(w, env, id).state.owned;
    var j :| 0 <= j < |w.state.owned| && w.state.owned[j] == id;
    assert owned'[j] == owned'[|w.state.owned|];
  }

  /** buyItem does not check the lock either. */
  lemma BuyItemIgnoresLock(w: World, env: Env, id: string)
    requires w.rt.locked && Find(id).Some?
    requires w.state.meows >= Find(id).value.price as real
    ensures BuyItem(w, env, id).state.totalSpent > w.state.totalSpent
  {
  }

  /**
   The shop button's click listener. A button is rendered disabled for an
   owned id, so it fires nothing; a locked game is refused with an alert;
   otherwise buyItem runs.
   */
  function BuyButton(w: World, env: Env, id: string): (w': World)
    ensures id in w.state.owned || w.rt.locked ==> w' == w
    ensures !(id in w.state.owned) && !w.rt.locked ==> w' == BuyItem(w, env, id)
  {
    if id in w.state.owned then w
    else if w.rt.locked then w
    else BuyItem(w, env, id)
  }

  /**
   Through the buttons no id is ever owned twice, and the product invariant
   holds. This rests on each handler running as one step: buyItem awaits the
   save before re-rendering the disabled button, so a second press inside
   that wait would buy again.
   */
  lemma BuyButtonKeepsNoDuplicates(w: World, env: Env, id: string)
    requires NoDuplicates(w.state.owned) && Consistent(w.state)
    ensures NoDuplicates(BuyButton(w, env, id).state.owned)
    ensures Consistent(BuyButton(w, env, id).state)
  {
    BuyKeepsConsistent(w, env, id);
  }

  /**
   The reset-upgrades handler: after the confirmation, owned becomes empty
   and the multiplier 1, every other field is left as it was, and the state
   is saved. The lock is not consulted.
   */
  function ResetUpgrades(w: World, env: Env, confirmed: bool): (w': World)
    ensures !confirmed ==> w' == w
    ensures confirmed ==>
              && w'.state == w.state.(owned := [], multiplier := 1.0)
              && w'.storage == Save(w.storage, env, w'.state)
              && w'.rt == w.rt.(display := Fmt(w.state.meows))
              && w'.pending == w.pending
              && Consistent(w'.state)
  {
    if !confirmed then w
    else
      var s := w.state.(owned := [], multiplier := 1.0);
      w.(state := s, storage := Save(w.storage, env, s), rt := w.rt.(display := Fmt(s.meows)))
  }
}

=== FILE: state.dfy ===
/**
 The game's records: the persisted GameState, the in-page runtime fields,
 the pending coin flips, and the World that every handler transforms.
 */
module State {
  import opened Wrappers
  import opened Config

  /** The persisted record (script.js:69-76). Balances are exact reals. */
  datatype GameState = GameState(
    meows: real,
    multiplier: real,
    owned: seq<string>,
    totalEarned: int,
    totalSpent: int,
    activeTimeSeconds: int
  )

  const Default: GameState := GameState(0.0, 1.0, [], 0, 0, 0)

  /**
   The page-lifetime variables (script.js:88-92, 349) plus the text of the
   balance display, which the display monitor reads back.
   */
  datatype Runtime = Runtime(
    lastClickAt: int,
    recentClicks: seq<int>,
    locked: bool,
    tamperCount: nat,
    visibleActive: bool,
    activeTimeStart: Option<int>,
    display: string
  )

  /** Runtime as the page starts: nothing clicked, unlocked, display as the page's markup left it. */
  function FreshRuntime(markup: string): Runtime {
    Runtime(0, [], false, 0, false, None, markup)
  }

  datatype Side = Heads | Tails

  /** A placed bet waiting for its delayed reveal: the closure state of script.js:258-269. */
  datatype Flip = Flip(bet: int, pick: Side, result: Side)

  /** Everything one page holds: state, runtime, the durable key-value store, and queued reveals. */
  datatype World = World(state: GameState, rt: Runtime, storage: map<string, string>, pending: seq<Flip>)

  /** Every id owned is in the catalogue and the multiplier is the product of their multipliers. */
  predicate Consistent(s: GameState) {
    && (forall i :: 0 <= i < |s.owned| ==> Known(s.owned[i]))
    && s.multiplier == Product(s.owned)
  }

  /** No id is owned twice. */
  predicate NoDuplicates(owned: seq<string>) {
    forall i, j :: 0 <= i < j < |owned| ==> owned[i] != owned[j]
  }

  lemma DefaultConsistent()
    ensures Consistent(Default) && NoDuplicates(Default.owned) && Default.meows >= 0.0
  {
  }
}

=== FILE: storage.dfy ===
/**
 Persistence with an integrity checksum (script.js:37-66): the state blob
 and its keyed digest live under two keys of a string-to-string store.

 SHA-256, JSON.stringify/JSON.parse and the per-session secret are not
 modelled; they arrive through `Env`. Whatever property of them a result
 needs (re-serialization is stable, the hash is injective) is a `requires`.
 */
module Storage {
  import opened Wrappers
  import opened Config
  import opened State

  /**
   The collaborators the store uses: `serialize` is JSON.stringify, `parse`
   is JSON.parse returning None when it throws or yields a falsy value,
   `hash` is the hex SHA-256 digest, `secret` the session secret.
   */
  datatype Env = Env(
    serialize: GameState -> string,
    parse: string -> Option<GameState>,
    hash: string -> string,
    secret: string
  )

  type Store = map<string, string>

  /** Re-serializing what `serialize(s)` parses back to gives the same text (or it parses to nothing). */
  predicate RoundTrips(env: Env, s: GameState) {
    match env.parse(env.serialize(s))
    case None => true
    case Some(t) => env.serialize(t) == env.serialize(s)
  }

  /** RoundTrips for every state. */
  ghost predicate Faithful(env: Env) {
    forall s :: RoundTrips(env, s)
  }

  ghost predicate Injective(hash: string -> string) {
    forall a, b :: hash(a) == hash(b) ==> a == b
  }

  /** loadState: absent or empty blob, or one that does not parse, is no state. */
  function Load(store: Store, env: Env): (r: Option<GameState>)
    ensures StorageKey !in store ==> r.None?
    ensures StorageKey in store && store[StorageKey] == "" ==> r.None?
    ensures r.Some? ==> env.parse(store[StorageKey]) == r
    ensures StorageKey in store && store[StorageKey] != "" ==> r == env.parse(store[StorageKey])
  {
    if StorageKey !in store || store[StorageKey] == "" then None
    else env.parse(store[StorageKey])
  }

  /** computeChecksum: digest of the serialized state, a '|' and the session secret. */
  function Checksum(env: Env, s: GameState): string {
    env.hash(env.serialize(s) + "|" + env.secret)
  }

  /** saveState: writes the state blob and its checksum, and nothing else. */
  function Save(store: Store, env: Env, s: GameState): (r: Store)
    ensures r.Keys == store.Keys + {StorageKey, ChecksumKey}
    ensures forall k :: k in store && k != StorageKey && k != ChecksumKey ==> r[k] == store[k]
    ensures env.parse(env.serialize(s)) == Load(r, env) || env.serialize(s) == ""
    ensures r[StorageKey] == env.serialize(s) && r[ChecksumKey] == Checksum(env, s)
  {
    store[StorageKey := env.serialize(s)][ChecksumKey := Checksum(env, s)]
  }

  /** verifyIntegrity: nothing stored verifies; otherwise the stored checksum must match the recomputed one. */
  function Verify(store: Store, env: Env): bool {
    match Load(store, env)
    case None => true
    case Some(s) => ChecksumKey in store && store[ChecksumKey] == Checksum(env, s)
  }

  /** A save always verifies, provided JSON re-serialization of the saved state is stable. */
  lemma SaveThenVerify(store: Store, env: Env, s: GameState)
    requires RoundTrips(env, s)
    ensures Verify(Save(store, env, s), env)
  {
    var r := Save(store, env, s);
    match Load(r, env)
    case None =>
    case Some(t) =>
      assert env.parse(env.serialize(s)) == Some(t);
      assert Checksum(env, t) == Checksum(env, s);
  }

  /** An absent, empty or unparseable blob is "nothing to verify". */
  lemma NothingStoredVerifies(store: Store, env: Env)
    requires StorageKey !in store || store[StorageKey] == "" || env.parse(store[StorageKey]).None?
    ensures Verify(store, env)
  {
  }

  /** A parseable blob with no checksum next to it fails. */
  lemma MissingChecksumFails(store: Store, env: Env)
    requires Load(store, env).Some?
    requires ChecksumKey !in store
    ensures !Verify(store, env)
  {
  }

  lemma SuffixDiffers(x: string, k1: string, k2: string)
    requires k1 != k2
    ensures x + "|" + k1 != x + "|" + k2
  {
    assert (x + "|" + k1)[|x| + 1..] == k1;
  }

  lemma PrefixDiffers(x: string, y: string, k: string)
    requires x != y
    ensures x + "|" + k != y + "|" + k
  {
    assert (x + "|" + k)[..|x|] == x;
  }

  /** State saved under one session secret fails verification under another, for an injective hash. */
  lemma OtherSecretFails(store: Store, env: Env, s: GameState, secret: string)
    requires Injective(env.hash)
    requires secret != env.secret
    requires env.serialize(s) != ""
    requires env.parse(env.serialize(s)).Some? && RoundTrips(env, s)
    ensures !Verify(Save(store, env, s), env.(secret := secret))
  {
    var other := env.(secret := secret);
    var r := Save(store, env, s);
    var t := Load(r, other).value;
    assert env.serialize(t) == env.serialize(s);
    SuffixDiffers(env.serialize(s), env.secret, secret);
    assert Checksum(other, t) != Checksum(env, s);
  }

  /**
   Overwriting the saved blob with one that parses to a differently
   serialized state, without touching the checksum, fails verification
   for an injective hash.
   */
  lemma OverwrittenBlobFails(store: Store, env: Env, s: GameState, blob: string)
    requires Injective(env.hash)
    requires blob != ""
    requires env.parse(blob).Some?
    requires env.serialize(env.parse(blob).value) != env.serialize(s)
    ensures !Verify(Save(store, env, s)[StorageKey := blob], env)
  {
    var r := Save(store, env, s)[StorageKey := blob];
    var t := env.parse(blob).value;
    assert Load(r, env) == Some(t);
    PrefixDiffers(env.serialize(t), env.serialize(s), env.secret);
    assert r[ChecksumKey] == Checksum(env, s);
  }
}

=== FILE: text.dfy ===
/**
 Decimal text used by the game's displays: integer-to-string, the
 `toFixed` rendering of non-negative reals, and a small reader that parses
 integers back out of a string.
 */
module Text {
  import opened Wrappers

  predicate IsDigit(c: char) {
    '0' <= c <= '9'
  }

  predicate AllDigits(s: string) {
    forall i :: 0 <= i < |s| ==> IsDigit(s[i])
  }

  function DigitChar(d: nat): (c: char)
    requires d < 10
    ensures IsDigit(c)
  {
    ('0' as int + d) as char
  }

  function DigitValue(c: char): (d: nat)
    requires IsDigit(c)
    ensures d < 10 && DigitChar(d) == c
  {
    c as int - '0' as int
  }

  /** Decimal digits of `n`, most significant first, no leading zeros (Number.prototype.toString). */
  function NatToString(n: nat): (r: string)
    ensures 1 <= |r| && AllDigits(r)
    ensures n < 10 <==> |r| == 1
    decreases n
  {
    if n < 10 then [DigitChar(n)] else NatToString(n / 10) + [DigitChar(n % 10)]
  }

  /** Integer rendering with a leading '-' for negatives. */
  function IntToString(i: int): (r: string)
    ensures 1 <= |r|
    ensures i >= 0 <==> AllDigits(r)
    ensures i < 0 <==> r[0] == '-'
  {
    if i < 0 then
      var r := "-" + NatToString(-i);
      assert !IsDigit(r[0]);
      r
    else NatToString(i)
  }

  /** Value of a string of decimal digits (0 for the empty string). */
  function ParseNat(s: string): nat
    requires AllDigits(s)
  {
    if |s| == 0 then 0 else 10 * ParseNat(s[..|s| - 1]) + DigitValue(s[|s| - 1])
  }

  lemma {:induction false} ParseNatToString(n: nat)
    ensures ParseNat(NatToString(n)) == n
    decreases n
  {
    if n >= 10 {
      ParseNatToString(n / 10);
      var s := NatToString(n);
      assert s[..|s| - 1] == NatToString(n / 10);
    }
  }

  /** Splits `s` into its longest all-digit prefix and the rest. */
  function TakeDigits(s: string): (r: (string, string))
    ensures AllDigits(r.0) && r.0 + r.1 == s
    ensures |r.1| == 0 || !IsDigit(r.1[0])
  {
    if |s| == 0 || !IsDigit(s[0]) then ("", s)
    else
      var tail := TakeDigits(s[1..]);
      ([s[0]] + tail.0, tail.1)
  }

  lemma {:induction false} TakeDigitsOf(d: string, rest: string)
    requires AllDigits(d)
    requires |rest| == 0 || !IsDigit(rest[0])
    ensures TakeDigits(d + rest) == (d, rest)
  {
    if |d| > 0 {
      assert (d + rest)[1..] == d[1..] + rest;
      TakeDigitsOf(d[1..], rest);
      assert [d[0]] + d[1..] == d;
    } else {
      assert d + rest == rest;
    }
  }

  /** Reads a run of decimal digits from the front of `s`. */
  function ReadNat(s: string): Option<(int, string)> {
    var split := TakeDigits(s);
    if |split.0| == 0 then None else Some((ParseNat(split.0) as int, split.1))
  }

  /** Reads an optionally negative decimal integer from the front of `s`. */
  function ReadInt(s: string): Option<(int, string)> {
    if |s| > 0 && s[0] == '-' then
      match ReadNat(s[1..])
      case Some((n, rest)) => Some((-n, rest))
      case None => None
    else ReadNat(s)
  }

  lemma ReadNatOfString(n: nat, rest: string)
    requires |rest| == 0 || !IsDigit(rest[0])
    ensures ReadNat(NatToString(n) + rest) == Some((n as int, rest))
  {
    TakeDigitsOf(NatToString(n), rest);
    ParseNatToString(n);
  }

  lemma ReadIntOfNegative(n: nat, rest: string)
    requires n > 0
    requires |rest| == 0 || !IsDigit(rest[0])
    ensures ReadInt("-" + NatToString(n) + rest) == Some((-(n as int), rest))
  {
    var s := "-" + NatToString(n) + rest;
    assert s[1..] == NatToString(n) + rest;
    ReadNatOfString(n, rest);
  }

  lemma ReadIntOfNatural(n: nat, rest: string)
    requires |rest| == 0 || !IsDigit(rest[0])
    ensures ReadInt(NatToString(n) + rest) == Some((n as int, rest))
  {
    assert IsDigit((NatToString(n) + rest)[0]);
    ReadNatOfString(n, rest);
  }

  /** ReadInt inverts IntToString whenever the text that follows is not a digit. */
  lemma ReadIntOfString(i: int, rest: string)
    requires |rest| == 0 || !IsDigit(rest[0])
    ensures ReadInt(IntToString(i) + rest) == Some((i, rest))
  {
    if i < 0 {
      ReadIntOfNegative(-i, rest);
    } else {
      ReadIntOfNatural(i, rest);
    }
  }

  function Pow10(k: nat): (p: nat)
    ensures p >= 1
  {
    if k == 0 then 1 else 10 * Pow10(k - 1)
  }

  /** Left-pads `s` with '0' up to `width` characters. */
  function PadZeros(s: string, width: nat): (r: string)
    ensures |r| == if |s| < width then width else |s|
    ensures AllDigits(s) ==> AllDigits(r)
    decreases width - |s|
  {
    if |s| >= width then s else PadZeros("0" + s, width)
  }

  /**
   Number.prototype.toFixed(places) of a non-negative value on exact reals:
   the value is scaled, rounded half up, and printed with exactly `places`
   fractional digits.
   */
  function ToFixed(x: real, places: nat): (r: string)
    requires x >= 0.0
    ensures forall i :: 0 <= i < |r| ==> IsDigit(r[i]) || r[i] == '.'
  {
    var scale := Pow10(places);
    var n := (x * scale as real + 0.5).Floor;
    assert n >= 0;
    if places == 0 then NatToString(n)
    else NatToString(n / scale) + "." + PadZeros(NatToString(n % scale), places)
  }
}

=== FILE: wrappers.dfy ===
/** The Some/None datatype used wherever the game code can see `null`. */
module Wrappers {

  datatype Option<+T> = None | Some(value: T) {

    /** Returns the value in Some, or `default` when None (JavaScript's `x || default`). */
    function GetOr(default: T): T {
      match this
      case Some(v) => v
      case None => default
    }
  }
}
